=== FILE: README.md ===
# Discord video downloader bot — verified model of its link classification and size-bounded download pipeline

The bot watches chat messages for links to short videos on TikTok,
Instagram, YouTube Shorts and Facebook, downloads the video with yt-dlp,
shrinks it with ffmpeg when it exceeds Discord's 8 MiB attachment budget,
falls back to a worst-quality download when shrinking fails, and reposts it.
This project models, in Dafny, the two parts of that behaviour that can be
stated precisely:

1. **Link classification** (`main.py`, `converter.py`): the message guard
   of `on_message`, `extract_url_and_platform` with `is_facebook_video`,
   `get_platform_color`, and the downloader's own `_detect_platform`.
   Python's `in`, `startswith`, `split()` and `strip()` are modelled on
   strings of Unicode scalar values (module `Text`).
2. **Size-bounded acquisition** (`converter.py`): `download_with_info` and
   `_compress_video` as pure functions over an abstract download directory
   (a map from path to size in bytes). yt-dlp and ffmpeg are oracles: every
   answer they could give (`Fetch`, `Transcode`) is a parameter, consulted
   only when the code reaches that call. Each run also returns the log of
   the effects `download_with_info` itself performs (a download under a
   policy, a call of `_compress_video`, its own `os.remove` calls), so that
   ordering and bounds can be stated. The removals `_compress_video` makes
   of its own output are not in the log; they show only in the directory it
   returns. `VideoDownloader` is built afresh for
   each message (`main.py:113`), so its in-place change of
   `ydl_opts['format']` is modelled as a local `Policy` value.

Modules: `Wrappers` (option type), `Text` (Python string operations),
`Paths` (POSIX `os.path.splitext` and the compression output name),
`Media` (platform tags, the 8 MiB budget `MAX_FILE_SIZE_BYTES` /
`max_file_size_bytes`), `Bot` (main.py), `Converter` (converter.py),
`Agreement` (how the two classifiers relate), `Scenarios` (end-to-end runs).

## Model

| member | source | states |
|---|---|---|
| Text.Contains | main.py:77 | `p in s` holds exactly when `p` occurs in `s` at some index |
| Text.Words | main.py:73 | every word of `split()` is non-empty and contains no whitespace |
| Text.WordsSplitAt | main.py:73 | a whitespace character splits the word list: `(a + c + b).split() == a.split() + b.split()` |
| Text.WordsOfWord | main.py:73 | a non-empty whitespace-free string splits into itself alone |
| Text.WordsOfBlank | main.py:73 | an all-whitespace string has no words |
| Text.StartsWith | main.py:94 | `s.startswith(p)` holds exactly when `p` occurs at offset 0, character by character |
| Text.Strip | main.py:72 | `strip()` removes exactly a whitespace prefix and suffix and leaves no whitespace at either end |
| Text.WordsStrip | main.py:72-73 | stripping before splitting does not change the words |
| Paths.ExtensionStart | converter.py:100 | the extension starts at a '.' after which there is no '.' or '/', and is not a leading dot of the file name; there is no extension only when every '.' of the last component has nothing but dots before it in that component |
| Paths.SplitExt | converter.py:100 | `root + ext` is the path; `ext` is empty or one '.' followed by no '.' and no '/'; `ext` is non-empty whenever the last component has a '.' with a non-dot before it |
| Paths.CompressedPath | converter.py:100 | the compression output is never the input path, ends in `_compressed.mp4`, starts with the input's directory and has no '/' after it |
| Bot.AnyOccurs | main.py:59 | `any(...)` holds iff one of the patterns occurs in the URL |
| Bot.IsFacebookVideo | main.py:38-59 | `is_facebook_video` holds iff one of its pattern list's entries is a substring of the URL |
| Bot.FacebookVideoNinePatterns | main.py:48-59 | `is_facebook_video` holds iff one of the nine listed patterns is a substring |
| Bot.RedundantPatterns | main.py:50-57 | an occurrence of any `m.`/`web.` pattern is an occurrence of the `facebook.com/reel/` or `facebook.com/watch/` pattern it extends |
| Bot.FacebookVideoEssentialPatterns | main.py:48-59 | the four `m.`/`web.` patterns are redundant: five substring tests decide `is_facebook_video` |
| Bot.FacebookVideoMentionsFacebook | main.py:48-83 | a Facebook video link contains `facebook.com` or `fb.watch`, so the first conjunct on line 83 is implied by the second |
| Bot.MessageRule | main.py:77-84 | the per-word rules never produce the tag `unknown` |
| Bot.MessageRulePriority | main.py:77-84 | per word, tiktok > instagram > youtube > facebook: each tag exactly when its own test passes and all earlier ones fail, no tag when all fail |
| Bot.FirstMatch | main.py:76-86 | the scan returns nothing iff no word matches, otherwise the leftmost matching word with its tag |
| Bot.ExtractUrlAndPlatform | main.py:61-86 | `(None, None)` iff no word of `content.split()` matches; otherwise the leftmost matching word, non-empty and whitespace-free, with a tag other than `unknown` |
| Bot.FirstMatchAppend | main.py:76-84 | scanning a concatenation yields the left part's match if it has one, else the right part's |
| Bot.ExtractLaterWordsIgnored | main.py:72-86 | for two parts joined by whitespace, later matching words are ignored once an earlier word matched |
| Bot.HandleMessage | main.py:94-99 | a bot's message or one starting with `!` is never scanned; any other message hands on exactly the link extraction finds |
| Bot.PlatformColor | main.py:170-186 | total; the default colour 0x7289DA is given exactly to strings that are not one of the four tags |
| Bot.PlatformColorsDistinct | main.py:180-186 | the four tags get four different brand colours, none the default; `unknown` gets the default |
| Converter.DetectPlatform | converter.py:70-88 | total; `unknown` exactly when none of the five domain substrings occurs |
| Converter.DetectPlatformPriority | converter.py:80-88 | priority facebook > tiktok > instagram > youtube: each tag exactly when its test is the first to pass |
| Converter.InitialPolicy | converter.py:40-42 | the first download uses `worst[ext=mp4]/worst` iff the URL contains `facebook.com` or `fb.watch`, the size-capped chain otherwise |
| Converter.CompressVideo | converter.py:90-130 | the output path is returned exactly when the exit code is 0 and a file within budget is then at the output path, and that file keeps the size ffmpeg wrote; otherwise no file remains at the output path; nothing else changes, the input included |
| Converter.Retry | converter.py:55-62 | the fallback downloads once with the worst policy; delivers its file with the re-fetched metadata exactly when that file exists within budget; otherwise removes it; leaves every other file alone; the delivered file keeps the size the tool wrote |
| Converter.CompressOrRetry | converter.py:48-62 | with an oversized original: compress, then remove the original before delivering the compressed file with the first metadata, or before a worst-policy second download whose file is delivered, with its own metadata, exactly when it exists within budget; the delivered file keeps the size the tool wrote |
| Converter.DownloadWithInfo | converter.py:27-68 | a first file within budget is delivered with its metadata; a successful compression is delivered with the first metadata; after a failed compression the fallback file is delivered with its own metadata exactly when it exists within budget, and None is returned otherwise; the delivered file keeps the size the tool wrote; any delivered file is on disk within 8 MiB; every other file the request wrote is gone; unnamed files untouched; first effect is a download under the initial policy; at most two downloads and one compression; compression iff the first file exists oversized; second download iff compression failed, after compressing and removing the original, with the worst policy; metadata provenance per branch; an exception in the first download or a missing first file gives None |
| Agreement.FacebookVideoDownloadedWorst | converter.py:40-42 | every link `is_facebook_video` accepts is tagged `facebook` by the downloader and fetched with the worst policy from the first attempt |
| Agreement.ClassifiersAgree | converter.py:80-88 | the downloader's tag differs from the chat tag exactly for a non-Facebook tag on a word mentioning Facebook, or a YouTube short mentioning `instagram.com` |
| Agreement.TikTokLinkMentioningFacebook | main.py:77-78 | a concrete TikTok link that the downloader tags `facebook` and fetches with the worst policy |
| Scenarios.SmallFileDelivered | converter.py:64 | a 3 MiB first download is delivered unchanged without compression |
| Scenarios.CompressedFileDelivered | converter.py:48-52 | a 15 MiB download compressed to 6 MiB: the compressed file is delivered and only it remains |
| Scenarios.FallbackDelivered | converter.py:53-60 | compression to 9 MiB fails; a 7 MiB worst-quality download is delivered with its own metadata, nothing else remains |
| Scenarios.NothingFits | converter.py:59-62 | a 10 MiB fallback is removed as well; None, empty directory |
| Scenarios.FacebookSmallFileDelivered | converter.py:40-42 | a Facebook link is fetched with the worst policy first and a small file is delivered without compression |
| Scenarios.ExtractorRaises | converter.py:66-68 | an exception from yt-dlp gives None and writes nothing |

## Behaviour worth noting

- A failure of the first download ends the request with None
  (`converter.py:45`, `:66-68`); only a failed compression leads to the
  fallback download (`converter.py:53-62`).
- The fallback result carries the metadata of the second download, since
  `info` is reassigned on `converter.py:57`; only the compressed result
  carries the first download's metadata (`converter.py:52`).
- Every failure is a bare None, without a reason (`converter.py:62`, `:64`,
  `:68`).
- While compressing, the oversized original and the compression output
  exist side by side: the original is removed only after `_compress_video`
  returns (`converter.py:49-54`; `Converter.CompressVideo` keeps the input).
  At the end only the delivered file, if any, remains of what the request
  wrote.
- `_detect_platform` has five tags with the priority facebook > tiktok >
  instagram > youtube (`converter.py:80-88`); `Agreement.ClassifiersAgree`
  gives the exact cases where it disagrees with the chat front end.

## Left out

- Discord plumbing: `on_ready` and the invite link, `process_video`
  (the failure message for an empty result on `main.py:119`, embed
  construction, the duration/quality line, sending, the size recheck on
  `main.py:154`, removal of the delivered file on `main.py:159` and
  `:166-168`), `bot.process_commands` and `bot.run`. This is chat-platform
  glue that acts only on the result after `download_with_info` returns; its
  size recheck decides only whether the user's message is deleted.
- yt-dlp internals: the meaning of the format selector strings (quoted in
  the comment on `Converter.Policy`), `extractor_args`,
  and `prepare_filename`; the oracle supplies the resulting path.
- A yt-dlp call that raises is assumed to leave the directory unchanged;
  partial files it might leave are not modelled.
- Converter.DownloadWithInfo: every `os.remove` (`converter.py:51`, `:54`,
  `:61`) is assumed to succeed. A removal that raised, for example with a
  permission error, would end the request with None through
  `converter.py:66-68` and leave the file on disk, which the cleanup clauses
  (`OnlyDeliveryAdded`, `KeepsOthers`) do not allow for.
- Converter.CompressVideo: the removals of the output on `converter.py:123`
  and `:129` are assumed to succeed. If the one on `:123` raised, the
  handler would retry it on `:129`; if that raised as well, the exception
  would leave `_compress_video` and the output would stay on disk, which the
  clauses "no file remains at the output path" and "no exception escapes"
  do not allow for. `Converter.DownloadWithInfo` inherits this assumption.
- Converter.DownloadWithInfo: a successful yt-dlp call is assumed to write
  nothing except the file at the path `prepare_filename` reports; other
  files it may write (intermediate streams, a merged output under another
  extension) are not tracked by the cleanup clauses.
- The ffmpeg recipe and transcoding; only the exit code and the size of the
  output file are modelled.
- asyncio, subprocess I/O, console logging, environment and dotenv
  loading, `os.makedirs`.
- Windows path rules for `os.path.splitext` (backslash separators); POSIX
  rules are modelled.
- Simultaneous requests for the same video racing on one file name; the
  model is sequential.
- Idempotence of repeated requests: for fixed tool answers the model is a
  function, so it is trivially deterministic; whether the real tools answer
  the same twice is outside the model.

=== FILE: agreement.dfy ===
/**
 How the two classifiers relate: the tag the chat front end gives a link
 (main.py) and the tag the downloader derives from the same link
 (converter.py), which decides the first format policy.
 */
module Agreement {
  import opened Wrappers
  import opened Text
  import opened Media
  import Bot
  import Converter

  /**
   Every link `is_facebook_video` accepts is tagged `facebook` by
   `_detect_platform` and so is downloaded with the worst-quality policy
   from the first attempt.
   */
  lemma FacebookVideoDownloadedWorst(url: string)
    requires Bot.IsFacebookVideo(url)
    ensures Converter.DetectPlatform(url) == Facebook
    ensures Converter.InitialPolicy(url) == Converter.Worst
  {
    Bot.FacebookVideoMentionsFacebook(url);
  }

  /**
   A word the chat front end tags `p` gets a different tag from the
   downloader exactly when it mentions `facebook.com`/`fb.watch` without
   being tagged `facebook` (it becomes `facebook`), or it is a YouTube short
   that also mentions `instagram.com` (it becomes `instagram`).
   */
  lemma ClassifiersAgree(word: string, p: Platform)
    requires Bot.MessageRule(word) == Some(p)
    ensures Converter.DetectPlatform(word) != p <==>
      (p != Facebook && MentionsFacebook(word))
      || (p == YouTube && Contains(word, "instagram.com"))
    ensures Converter.DetectPlatform(word) != p ==>
      Converter.DetectPlatform(word) == Facebook
      || (p == YouTube && Converter.DetectPlatform(word) == Instagram)
  {
    Bot.MessageRulePriority(word);
    if p == Facebook {
      Bot.FacebookVideoMentionsFacebook(word);
    }
  }

  /** The first exception is real: a TikTok link the downloader treats as Facebook. */
  lemma TikTokLinkMentioningFacebook()
    ensures Bot.MessageRule("tiktok.com/@a/video/1?r=facebook.com") == Some(TikTok)
    ensures Converter.DetectPlatform("tiktok.com/@a/video/1?r=facebook.com") == Facebook
    ensures Converter.InitialPolicy("tiktok.com/@a/video/1?r=facebook.com") == Converter.Worst
  {
    var w := "tiktok.com/@a/video/1?r=facebook.com";
    assert OccursAt(w, "tiktok.com", 0);
    assert OccursAt(w, "facebook.com", 24) by { assert w[24..] == "facebook.com"; }
  }
}

=== FILE: bot.dfy ===
/**
 The chat front end (main.py): which messages are scanned, how a message is
 cut into words, which word is taken as the video link and with which
 platform tag, and the embed colour per tag.
 */
module Bot {
  import opened Wrappers
  import opened Text
  import opened Media

  /** `facebook_patterns` of `is_facebook_video`, in source order. */
  const FacebookPatterns: seq<string> := [
    "fb.watch/",
    "facebook.com/reel/",
    "facebook.com/watch/",
    "facebook.com/story.php",
    "facebook.com/video.php",
    "m.facebook.com/reel/",
    "m.facebook.com/watch/",
    "web.facebook.com/reel/",
    "web.facebook.com/watch/"
  ]

  /** Python's `any(pattern in url for pattern in patterns)`. */
  function AnyOccurs(url: string, patterns: seq<string>): (r: bool)
    ensures r <==> exists i :: 0 <= i < |patterns| && Contains(url, patterns[i])
  {
    if |patterns| == 0 then false
    else Contains(url, patterns[0]) || AnyOccurs(url, patterns[1..])
  }

  /** `is_facebook_video(url)`. */
  predicate IsFacebookVideo(url: string): (r: bool)
    ensures r <==> exists i :: 0 <= i < |FacebookPatterns| && Contains(url, FacebookPatterns[i])
  {
    AnyOccurs(url, FacebookPatterns)
  }

  /** An occurrence of `p` at offset `i` inside `q` makes every `q` in `s` a `p` in `s`. */
  lemma ContainsWithin(s: string, q: string, p: string, i: nat)
    requires OccursAt(q, p, i) && Contains(s, q)
    ensures Contains(s, p)
  {
    ContainsTransitive(s, q, p);
  }

  /** `is_facebook_video` spelled out as nine substring tests. */
  lemma FacebookVideoNinePatterns(url: string)
    ensures IsFacebookVideo(url) <==>
      Contains(url, "fb.watch/") || Contains(url, "facebook.com/reel/")
      || Contains(url, "facebook.com/watch/") || Contains(url, "facebook.com/story.php")
      || Contains(url, "facebook.com/video.php") || Contains(url, "m.facebook.com/reel/")
      || Contains(url, "m.facebook.com/watch/") || Contains(url, "web.facebook.com/reel/")
      || Contains(url, "web.facebook.com/watch/")
  {
    var ps := FacebookPatterns;
    assert ps[0] == "fb.watch/" && ps[1] == "facebook.com/reel/" && ps[2] == "facebook.com/watch/";
    assert ps[3] == "facebook.com/story.php" && ps[4] == "facebook.com/video.php";
    assert ps[5] == "m.facebook.com/reel/" && ps[6] == "m.facebook.com/watch/";
    assert ps[7] == "web.facebook.com/reel/" && ps[8] == "web.facebook.com/watch/";
  }

  /**
   The last four patterns are redundant: each contains one of the first
   five, so `is_facebook_video` reduces to five substring tests.
   */
  lemma FacebookVideoEssentialPatterns(url: string)
    ensures IsFacebookVideo(url) <==>
      Contains(url, "fb.watch/") || Contains(url, "facebook.com/reel/")
      || Contains(url, "facebook.com/watch/") || Contains(url, "facebook.com/story.php")
      || Contains(url, "facebook.com/video.php")
  {
    FacebookVideoNinePatterns(url);
    RedundantPatterns(url);
  }

  /** A pattern that ends with `short` from offset `k` on occurs only where `short` does. */
  lemma LongerPattern(url: string, long: string, short: string, k: nat)
    requires k <= |long| && long[k..] == short
    ensures Contains(url, long) ==> Contains(url, short)
  {
    if Contains(url, long) {
      ContainsWithin(url, long, short, k);
    }
  }

  /** Each `m.`/`web.` pattern occurrence is an occurrence of the shorter pattern it extends. */
  lemma RedundantPatterns(url: string)
    ensures Contains(url, "m.facebook.com/reel/") ==> Contains(url, "facebook.com/reel/")
    ensures Contains(url, "m.facebook.com/watch/") ==> Contains(url, "facebook.com/watch/")
    ensures Contains(url, "web.facebook.com/reel/") ==> Contains(url, "facebook.com/reel/")
    ensures Contains(url, "web.facebook.com/watch/") ==> Contains(url, "facebook.com/watch/")
  {
    LongerPattern(url, "m.facebook.com/reel/", "facebook.com/reel/", 2);
    LongerPattern(url, "m.facebook.com/watch/", "facebook.com/watch/", 2);
    LongerPattern(url, "web.facebook.com/reel/", "facebook.com/reel/", 4);
    LongerPattern(url, "web.facebook.com/watch/", "facebook.com/watch/", 4);
  }

  /**
   Every Facebook video link mentions `facebook.com` or `fb.watch`, so the
   first half of the Facebook condition in `extract_url_and_platform` never
   decides anything.
   */
  lemma FacebookVideoMentionsFacebook(url: string)
    requires IsFacebookVideo(url)
    ensures MentionsFacebook(url)
  {
    FacebookVideoEssentialPatterns(url);
    var fb := "facebook.com";
    if Contains(url, "fb.watch/") {
      ContainsWithin(url, "fb.watch/", "fb.watch", 0);
    } else if Contains(url, "facebook.com/reel/") {
      ContainsWithin(url, "facebook.com/reel/", fb, 0);
    } else if Contains(url, "facebook.com/watch/") {
      ContainsWithin(url, "facebook.com/watch/", fb, 0);
    } else if Contains(url, "facebook.com/story.php") {
      ContainsWithin(url, "facebook.com/story.php", fb, 0);
    } else {
      ContainsWithin(url, "facebook.com/video.php", fb, 0);
    }
  }

  predicate InstagramPost(word: string) {
    Contains(word, "instagram.com")
    && (Contains(word, "/reels/") || Contains(word, "/reel/") || Contains(word, "/p/"))
  }

  predicate YouTubeShort(word: string) {
    Contains(word, "youtube.com") && Contains(word, "/shorts/")
  }

  /** The four tests `extract_url_and_platform` applies to one word, in order. */
  function MessageRule(word: string): (r: Option<Platform>)
    ensures r != Some(Unknown)
  {
    if Contains(word, "tiktok.com") then Some(TikTok)
    else if InstagramPost(word) then Some(Instagram)
    else if YouTubeShort(word) then Some(YouTube)
    else if MentionsFacebook(word) && IsFacebookVideo(word) then Some(Facebook)
    else None
  }

  /**
   Within one word the tag priority is tiktok > instagram > youtube >
   facebook, and each tag holds exactly when its own test passes and every
   earlier test fails.
   */
  lemma MessageRulePriority(word: string)
    ensures MessageRule(word) == Some(TikTok) <==> Contains(word, "tiktok.com")
    ensures MessageRule(word) == Some(Instagram) <==>
      !Contains(word, "tiktok.com") && InstagramPost(word)
    ensures MessageRule(word) == Some(YouTube) <==>
      !Contains(word, "tiktok.com") && !InstagramPost(word) && YouTubeShort(word)
    ensures MessageRule(word) == Some(Facebook) <==>
      !Contains(word, "tiktok.com") && !InstagramPost(word) && !YouTubeShort(word)
      && IsFacebookVideo(word)
    ensures MessageRule(word) == None <==>
      !Contains(word, "tiktok.com") && !InstagramPost(word) && !YouTubeShort(word)
      && !IsFacebookVideo(word)
  {
    if IsFacebookVideo(word) {
      FacebookVideoMentionsFacebook(word);
    }
  }

  /** The link the bot acts on, with its tag: `(word, platform)` in main.py. */
  datatype Found = Found(url: string, platform: Platform)

  /** Word `i` matches a rule and no earlier word does. */
  ghost predicate LeftmostMatch(words: seq<string>, i: int) {
    && 0 <= i < |words|
    && MessageRule(words[i]).Some?
    && forall j :: 0 <= j < i ==> MessageRule(words[j]).None?
  }

  /** The loop of `extract_url_and_platform`: the first word any rule accepts. */
  function FirstMatch(words: seq<string>): (r: Option<Found>)
    ensures r.None? <==> forall i :: 0 <= i < |words| ==> MessageRule(words[i]).None?
    ensures r.Some? ==> exists i :: (LeftmostMatch(words, i)
      && r.value == Found(words[i], MessageRule(words[i]).value))
  {
    if |words| == 0 then None
    else
      match MessageRule(words[0])
      case Some(p) =>
        assert LeftmostMatch(words, 0);
        Some(Found(words[0], p))
      case None =>
        var r := FirstMatch(words[1..]);
        assert r.Some? ==> exists i :: (LeftmostMatch(words, i)
          && r.value == Found(words[i], MessageRule(words[i]).value)) by {
          if r.Some? {
            var i :| LeftmostMatch(words[1..], i)
              && r.value == Found(words[1..][i], MessageRule(words[1..][i]).value);
            assert LeftmostMatch(words, i + 1);
          }
        }
        r
  }

  /**
   `extract_url_and_platform(content)`: `None` when no word of
   `content.split()` matches a rule, otherwise the leftmost matching word,
   which is non-empty and free of whitespace, with its tag.
   */
  function ExtractUrlAndPlatform(content: string): (r: Option<Found>)
    ensures r.None? <==>
      forall i :: 0 <= i < |Words(content)| ==> MessageRule(Words(content)[i]).None?
    ensures r.Some? ==> exists i :: (LeftmostMatch(Words(content), i)
      && r.value == Found(Words(content)[i], MessageRule(Words(content)[i]).value))
    ensures r.Some? ==> |r.value.url| > 0 && NoSpace(r.value.url)
    ensures r.Some? ==> r.value.platform != Unknown
  {
    WordsStrip(content);
    FirstMatch(Words(Strip(content)))
  }

  /** Scanning a concatenation: the left part's match wins if it has one. */
  lemma {:induction false} FirstMatchAppend(xs: seq<string>, ys: seq<string>)
    ensures FirstMatch(xs + ys) == if FirstMatch(xs).Some? then FirstMatch(xs) else FirstMatch(ys)
  {
    if |xs| == 0 {
      assert xs + ys == ys;
    } else {
      assert (xs + ys)[0] == xs[0];
      assert (xs + ys)[1..] == xs[1..] + ys;
      FirstMatchAppend(xs[1..], ys);
    }
  }

  /**
   Words after the first matching one are ignored: for a message made of two
   parts separated by whitespace, the result is the first part's result if
   it has one and the second part's otherwise.
   */
  lemma ExtractLaterWordsIgnored(a: string, c: char, b: string)
    requires IsSpace(c)
    ensures ExtractUrlAndPlatform(a + [c] + b)
      == if ExtractUrlAndPlatform(a).Some? then ExtractUrlAndPlatform(a) else ExtractUrlAndPlatform(b)
  {
    WordsStrip(a + [c] + b);
    WordsStrip(a);
    WordsStrip(b);
    WordsSplitAt(a, c, b);
    FirstMatchAppend(Words(a), Words(b));
  }

  /**
   `on_message` up to the call of `process_video`: messages from bots and
   messages starting with `!` are dropped before any scanning; otherwise the
   link found in the text, if any, is the one processed.
   */
  function HandleMessage(authorIsBot: bool, content: string): (r: Option<Found>)
    ensures authorIsBot || StartsWith(content, "!") ==> r.None?
    ensures !authorIsBot && !StartsWith(content, "!") ==> r == ExtractUrlAndPlatform(content)
  {
    if authorIsBot || StartsWith(content, "!") then None
    else
      var found := ExtractUrlAndPlatform(content);
      // `if url:` holds for every found word, since words are non-empty
      if found.Some? && |found.value.url| > 0 then found else None
  }

  const DefaultColor: nat := 0x7289DA

  /** `colors` of `get_platform_color`. */
  const BrandColors: map<string, nat> := map[
    "tiktok" := 0x000000,
    "instagram" := 0xE1306C,
    "youtube" := 0xFF0000,
    "facebook" := 0x1877F2
  ]

  /** `get_platform_color(platform)`: defined for every string. */
  function PlatformColor(platform: string): (color: nat)
    ensures color == DefaultColor <==> platform !in BrandColors
  {
    if platform in BrandColors then BrandColors[platform] else DefaultColor
  }

  /**
   The four tags `extract_url_and_platform` produces get four different
   brand colours; any other string, `unknown` included, gets the default.
   */
  lemma PlatformColorsDistinct(p: Platform, q: Platform)
    requires p != Unknown && q != Unknown
    ensures PlatformColor(p.Name()) != DefaultColor
    ensures PlatformColor(p.Name()) == PlatformColor(q.Name()) <==> p == q
    ensures PlatformColor(Unknown.Name()) == DefaultColor
  {
  }
}

=== FILE: converter.dfy ===
/**
 The downloader (converter.py): platform detection, the choice of yt-dlp
 format policy, and the size-bounded acquisition of one video
 (`download_with_info` together with `_compress_video`).

 yt-dlp and ffmpeg are oracles: each call's outcome is supplied up front in
 an `Oracle` value and consulted only if the code reaches that call. The
 download directory is an abstract file system mapping each existing path
 to its size in bytes.
 */
module Converter {
  import opened Wrappers
  import opened Text
  import opened Media
  import opened Paths

  /** `_detect_platform(url)`: substring tests, Facebook first, `unknown` by default. */
  function DetectPlatform(url: string): (p: Platform)
    ensures p == Unknown <==>
      !MentionsFacebook(url) && !Contains(url, "tiktok.com")
      && !Contains(url, "instagram.com") && !Contains(url, "youtube.com")
  {
    if MentionsFacebook(url) then Facebook
    else if Contains(url, "tiktok.com") then TikTok
    else if Contains(url, "instagram.com") then Instagram
    else if Contains(url, "youtube.com") then YouTube
    else Unknown
  }

  /** Priority facebook > tiktok > instagram > youtube: each tag exactly when its test is the first to pass. */
  lemma DetectPlatformPriority(url: string)
    ensures DetectPlatform(url) == Facebook <==> MentionsFacebook(url)
    ensures DetectPlatform(url) == TikTok <==>
      DetectPlatform(url) != Facebook && Contains(url, "tiktok.com")
    ensures DetectPlatform(url) == Instagram <==>
      DetectPlatform(url) !in {Facebook, TikTok} && Contains(url, "instagram.com")
    ensures DetectPlatform(url) == YouTube <==>
      DetectPlatform(url) !in {Facebook, TikTok, Instagram} && Contains(url, "youtube.com")
  {
  }

  /**
   The two values `ydl_opts['format']` takes: the size-capped chain
   `mp4[filesize<=8M]/best[ext=mp4][filesize<=8M]/best[filesize<=8M]/best`
   and the worst-quality chain `worst[ext=mp4]/worst`.
   */
  datatype Policy = SizeCapped | Worst

  /**
   The policy of the first download: the worst-quality chain for any URL
   mentioning `facebook.com` or `fb.watch`, the size-capped chain otherwise.
   */
  function InitialPolicy(url: string): (p: Policy)
    ensures p == Worst <==> MentionsFacebook(url)
  {
    if DetectPlatform(url) == Facebook then Worst else SizeCapped
  }

  /**
   The metadata dictionary yt-dlp returns. It is opaque to the model: no
   member reads its fields, and only which download it came from matters.
   The fields shown are examples of what the dictionary carries.
   */
  datatype MediaInfo = MediaInfo(
    id: string,
    title: Option<string>,
    uploader: Option<string>,
    height: Option<nat>)

  /**
   Outcome of `extract_info(url, download=True)` followed by
   `prepare_filename(info)`: either an exception, or the path the file is
   expected at, the metadata, and the size of the file the tool wrote there
   (None when it wrote nothing at that path).
   */
  datatype Fetch = Raised | Fetched(path: Path, info: MediaInfo, wrote: Option<nat>)

  /**
   Outcome of the ffmpeg process: a non-zero exit code, or exit code 0 and
   the size of the output file it wrote (None when it wrote none).
   */
  datatype Transcode = ExitNonZero | ExitZero(wrote: Option<nat>)

  /** The answers of the external tools, one per call the code may make. */
  datatype Oracle = Oracle(first: Fetch, transcode: Transcode, second: Fetch)

  /** The download directory: each existing path with its size in bytes. */
  type FileSystem = map<Path, nat>

  /** The external effects of one request, in order. */
  datatype Event = Download(policy: Policy) | Compress(input: Path) | Remove(path: Path)

  /** `{'path': ..., 'info': ...}`. */
  datatype Delivery = Delivery(path: Path, info: MediaInfo)

  /** What `download_with_info` returns, with the directory and the effect log it leaves. */
  datatype Run = Run(result: Option<Delivery>, fs: FileSystem, events: seq<Event>)

  /** What `_compress_video` returns, with the directory it leaves. */
  datatype Compression = Compression(output: Option<Path>, fs: FileSystem)

  /** The directory after a download: the written file, if any, replaces what was at its path. */
  function AfterFetch(fs: FileSystem, f: Fetch): FileSystem {
    if f.Fetched? && f.wrote.Some? then fs[f.path := f.wrote.value] else fs
  }

  /** The directory after the ffmpeg process: an output it wrote replaces what was at the output path. */
  function AfterTranscode(fs: FileSystem, input: Path, t: Transcode): FileSystem {
    if t.ExitZero? && t.wrote.Some? then fs[CompressedPath(input) := t.wrote.value] else fs
  }

  predicate WithinBudget(fs: FileSystem, p: Path) {
    p in fs && fs[p] <= MaxFileSizeBytes
  }

  /** `p` exists in both directories with the same size: the file the tool wrote is the one that is there. */
  predicate SameFile(after: FileSystem, before: FileSystem, p: Path) {
    p in after && p in before && after[p] == before[p]
  }

  predicate Oversized(fs: FileSystem, p: Path) {
    p in fs && fs[p] > MaxFileSizeBytes
  }

  /**
   `_compress_video(input)`: the output path is returned exactly when the
   process exits with code 0 and a file of at most the budget is then at the
   output path; otherwise no file remains at the output path. Nothing but
   the output path changes, and no exception escapes.
   */
  function CompressVideo(input: Path, fs: FileSystem, t: Transcode): (c: Compression)
    ensures c.output.Some? <==> t.ExitZero? && WithinBudget(AfterTranscode(fs, input, t), CompressedPath(input))
    ensures c.output.Some? ==>
      t.ExitZero? && c.output.value == CompressedPath(input) && WithinBudget(c.fs, c.output.value)
    ensures c.output.Some? ==> SameFile(c.fs, AfterTranscode(fs, input, t), c.output.value)
    ensures c.output.None? ==> CompressedPath(input) !in c.fs
    ensures forall p :: p != CompressedPath(input) ==>
      (p in c.fs <==> p in fs) && (p in fs ==> c.fs[p] == fs[p])
    ensures input in fs ==> input in c.fs && c.fs[input] == fs[input]
  {
    var out := CompressedPath(input);
    match t
    case ExitNonZero =>
      // the exception handler removes whatever the process left behind
      Compression(None, fs - {out})
    case ExitZero(_) =>
      var fs1 := AfterTranscode(fs, input, t);
      if out !in fs1 then
        // os.path.getsize raises; the handler finds nothing to remove
        Compression(None, fs1)
      else if fs1[out] <= MaxFileSizeBytes then
        Compression(Some(out), fs1)
      else
        Compression(None, fs1 - {out})
  }

  /**
   The fallback branch (lines 55-62): one download under the worst-quality
   policy; its file is delivered with the re-fetched metadata if it exists
   within budget, and removed otherwise.
   */
  function Retry(fs: FileSystem, second: Fetch): (run: Run)
    ensures run.events == [Download(Worst)]
      || (second.Fetched? && run.events == [Download(Worst), Remove(second.path)])
    ensures Downloads(run.events) == 1 && Compressions(run.events) == 0
    ensures run.result.Some? <==> second.Fetched? && WithinBudget(AfterFetch(fs, second), second.path)
    ensures run.result.Some? ==>
      second.Fetched? && run.result.value == Delivery(second.path, second.info)
      && WithinBudget(run.fs, second.path)
    ensures run.result.Some? ==> SameFile(run.fs, AfterFetch(fs, second), second.path)
    ensures OnlyDeliveryAdded(fs, run)
    ensures KeepsOthers(fs, run.fs, if second.Fetched? then {second.path} else {})
  {
    match second
    case Raised => Run(None, fs, [Download(Worst)])
    case Fetched(v, info, _) =>
      var fs1 := AfterFetch(fs, second);
      if WithinBudget(fs1, v) then
        Run(Some(Delivery(v, info)), fs1, [Download(Worst)])
      else if v in fs1 then
        var events := [Download(Worst), Remove(v)];
        assert events[1..][1..] == [];
        Run(None, fs1 - {v}, events)
      else
        // os.remove raises FileNotFoundError, which the outer handler turns into None
        Run(None, fs1, [Download(Worst)])
  }

  function Downloads(events: seq<Event>): nat {
    if |events| == 0 then 0
    else (if events[0].Download? then 1 else 0) + Downloads(events[1..])
  }

  function Compressions(events: seq<Event>): nat {
    if |events| == 0 then 0
    else (if events[0].Compress? then 1 else 0) + Compressions(events[1..])
  }

  /** Counting effects distributes over concatenated logs. */
  lemma {:induction false} CountsAppend(a: seq<Event>, b: seq<Event>)
    ensures Downloads(a + b) == Downloads(a) + Downloads(b)
    ensures Compressions(a + b) == Compressions(a) + Compressions(b)
  {
    if |a| == 0 {
      assert a + b == b;
    } else {
      assert (a + b)[0] == a[0];
      assert (a + b)[1..] == a[1..] + b;
      CountsAppend(a[1..], b);
    }
  }

  /** The paths a request can write to or remove. */
  function Named(o: Oracle): set<Path> {
    (if o.first.Fetched? then {o.first.path, CompressedPath(o.first.path)} else {})
    + (if o.second.Fetched? then {o.second.path} else {})
  }

  /** The first downloaded file exists and exceeds the budget. */
  predicate NeedsCompression(fs: FileSystem, o: Oracle) {
    o.first.Fetched? && Oversized(AfterFetch(fs, o.first), o.first.path)
  }

  /** Compression was attempted and gave nothing back. */
  predicate CompressionFailed(fs: FileSystem, o: Oracle) {
    NeedsCompression(fs, o)
    && CompressVideo(o.first.path, AfterFetch(fs, o.first), o.transcode).output.None?
  }

  /** The log of the compression branch up to the removal of the original. */
  lemma HeadCounts(policy: Policy, v: Path)
    ensures Downloads([Download(policy), Compress(v), Remove(v)]) == 1
    ensures Compressions([Download(policy), Compress(v), Remove(v)]) == 1
  {
    var h := [Download(policy), Compress(v), Remove(v)];
    assert h[1..][1..][1..] == [];
    assert Downloads(h[1..][1..]) == 0 && Compressions(h[1..][1..]) == 0;
    assert Downloads(h[1..]) == 0 && Compressions(h[1..]) == 1;
  }

  /** Every file in `after` is the delivered one or an untouched file of `before`. */
  ghost predicate OnlyDeliveryAdded(before: FileSystem, run: Run) {
    forall p :: p in run.fs ==>
      (run.result.Some? && p == run.result.value.path) || (p in before && run.fs[p] == before[p])
  }

  /** Every file of `before` outside `named` is still in `after`, unchanged. */
  ghost predicate KeepsOthers(before: FileSystem, after: FileSystem, named: set<Path>) {
    forall p :: p in before && p !in named ==> p in after && after[p] == before[p]
  }

  /**
   Lines 48-62 once the first file `v` is known to be oversized: compress;
   remove the original; then deliver the compressed file with the first
   metadata, or, if compression gave nothing, retry with the worst policy.
   */
  function CompressOrRetry(policy: Policy, fs: FileSystem, v: Path, info: MediaInfo, o: Oracle): (run: Run)
    requires Oversized(fs, v)
    ensures run.result.Some? ==> WithinBudget(run.fs, run.result.value.path)
    ensures OnlyDeliveryAdded(fs - {v}, run)
    ensures KeepsOthers(fs, run.fs, {v, CompressedPath(v)} + (if o.second.Fetched? then {o.second.path} else {}))
    ensures |run.events| >= 3
    ensures run.events[0] == Download(policy) && run.events[1] == Compress(v) && run.events[2] == Remove(v)
    ensures Compressions(run.events) == 1
    ensures CompressVideo(v, fs, o.transcode).output.Some? ==>
      Downloads(run.events) == 1 && run.result == Some(Delivery(CompressedPath(v), info))
    ensures CompressVideo(v, fs, o.transcode).output.None? ==>
      |run.events| >= 4 && run.events[3] == Download(Worst) && Downloads(run.events) == 2
      && (run.result.Some? ==> o.second.Fetched? && run.result.value == Delivery(o.second.path, o.second.info))
    ensures CompressVideo(v, fs, o.transcode).output.Some? ==>
      SameFile(run.fs, AfterTranscode(fs, v, o.transcode), CompressedPath(v))
    ensures run.result.Some? && CompressVideo(v, fs, o.transcode).output.None? ==>
      SameFile(run.fs, AfterFetch(CompressVideo(v, fs, o.transcode).fs - {v}, o.second), o.second.path)
    ensures CompressVideo(v, fs, o.transcode).output.None? ==>
      (run.result.Some? <==>
        o.second.Fetched? && WithinBudget(AfterFetch(CompressVideo(v, fs, o.transcode).fs - {v}, o.second), o.second.path))
  {
    var c := CompressVideo(v, fs, o.transcode);
    var fs2 := c.fs - {v};
    var head := [Download(policy), Compress(v), Remove(v)];
    HeadCounts(policy, v);
    assert forall p :: p in fs2 ==> p == CompressedPath(v) || (p in fs - {v} && fs2[p] == fs[p]);
    if c.output.Some? then
      Run(Some(Delivery(c.output.value, info)), fs2, head)
    else
      var retry := Retry(fs2, o.second);
      CountsAppend(head, retry.events);
      Run(retry.result, retry.fs, head + retry.events)
  }

  /**
   `download_with_info(url)`. A file is delivered whenever the first
   download, its compression or the fallback download yields one within the
   budget. Whatever the tools answer: a delivered file
   exists within the budget; every other file the request wrote is gone;
   files it never names are untouched; compression runs exactly when the
   first file exists and is oversized, and the second download exactly when
   compression failed, after the original was removed and under the
   worst-quality policy; the delivered metadata is that of the download
   whose file (or whose file's compression) is delivered; every exception
   becomes None.
   */
  function DownloadWithInfo(url: string, fs: FileSystem, o: Oracle): (run: Run)
    ensures run.result.Some? ==> WithinBudget(run.fs, run.result.value.path)
    ensures OnlyDeliveryAdded(fs, run)
    ensures KeepsOthers(fs, run.fs, Named(o))
    ensures |run.events| > 0 && run.events[0] == Download(InitialPolicy(url))
    ensures Downloads(run.events) <= 2 && Compressions(run.events) <= 1
    ensures Compressions(run.events) == 1 <==> NeedsCompression(fs, o)
    ensures Downloads(run.events) == 2 <==> CompressionFailed(fs, o)
    ensures NeedsCompression(fs, o) ==>
      |run.events| >= 3 && run.events[1] == Compress(o.first.path) && run.events[2] == Remove(o.first.path)
    ensures CompressionFailed(fs, o) ==> |run.events| >= 4 && run.events[3] == Download(Worst)
    ensures run.result.Some? && Compressions(run.events) == 0 ==>
      o.first.Fetched? && run.result.value == Delivery(o.first.path, o.first.info)
    ensures run.result.Some? && Compressions(run.events) == 1 && Downloads(run.events) == 1 ==>
      o.first.Fetched? && run.result.value == Delivery(CompressedPath(o.first.path), o.first.info)
    ensures run.result.Some? && Downloads(run.events) == 2 ==>
      o.second.Fetched? && run.result.value == Delivery(o.second.path, o.second.info)
    ensures o.first.Fetched? && WithinBudget(AfterFetch(fs, o.first), o.first.path) ==>
      run.result == Some(Delivery(o.first.path, o.first.info))
    ensures NeedsCompression(fs, o) && !CompressionFailed(fs, o) ==>
      run.result == Some(Delivery(CompressedPath(o.first.path), o.first.info))
    ensures (CompressionFailed(fs, o) && o.second.Fetched? && o.second.wrote.Some?
      && o.second.wrote.value <= MaxFileSizeBytes) ==>
      run.result == Some(Delivery(o.second.path, o.second.info))
    ensures CompressionFailed(fs, o) ==>
      (run.result.Some? <==>
        o.second.Fetched?
        && WithinBudget(AfterFetch(CompressVideo(o.first.path, AfterFetch(fs, o.first), o.transcode).fs - {o.first.path}, o.second),
                        o.second.path))
    ensures run.result.Some? && Compressions(run.events) == 0 ==>
      SameFile(run.fs, AfterFetch(fs, o.first), o.first.path)
    ensures run.result.Some? && Compressions(run.events) == 1 && Downloads(run.events) == 1 ==>
      SameFile(run.fs, AfterTranscode(AfterFetch(fs, o.first), o.first.path, o.transcode), CompressedPath(o.first.path))
    ensures run.result.Some? && Downloads(run.events) == 2 ==>
      SameFile(run.fs, AfterFetch(CompressVideo(o.first.path, AfterFetch(fs, o.first), o.transcode).fs - {o.first.path}, o.second),
               o.second.path)
    ensures o.first.Raised? ==> run.result.None? && run.fs == fs
    ensures o.first.Fetched? && o.first.path !in AfterFetch(fs, o.first) ==> run.result.None?
  {
    var policy := InitialPolicy(url);
    match o.first
    case Raised => Run(None, fs, [Download(policy)])
    case Fetched(v, info, _) =>
      var fs1 := AfterFetch(fs, o.first);
      if Oversized(fs1, v) then
        CompressOrRetry(policy, fs1, v, info, o)
      else if v in fs1 then
        Run(Some(Delivery(v, info)), fs1, [Download(policy)])
      else
        Run(None, fs1, [Download(policy)])
  }
}

=== FILE: media.dfy ===
/** Vocabulary shared by the chat front end and the downloader. */
module Media {
  import opened Text

  /** The platform tags both classifiers produce, as Python strings. */
  datatype Platform = Facebook | TikTok | Instagram | YouTube | Unknown {

    /** The tag string the Python code passes around. */
    function Name(): string {
      match this
      case Facebook => "facebook"
      case TikTok => "tiktok"
      case Instagram => "instagram"
      case YouTube => "youtube"
      case Unknown => "unknown"
    }
  }

  /** The test both files use to recognise a Facebook link: `'facebook.com' in url or 'fb.watch' in url`. */
  predicate MentionsFacebook(url: string) {
    Contains(url, "facebook.com") || Contains(url, "fb.watch")
  }

  /** The attachment budget, 8 MiB, declared identically by both files. */
  const MaxFileSizeBytes: nat := 8 * 1024 * 1024
}

=== FILE: paths.dfy ===
/**
 Path arithmetic the converter performs on download paths: POSIX
 `os.path.splitext` and the name of the compression output derived from it.
 */
module Paths {

  type Path = string

  /** Python's `s.rfind(c)` for a one-character needle: last index of `c`, or -1. */
  function RFind(s: string, c: char): (r: int)
    ensures -1 <= r < |s|
    ensures r >= 0 ==> s[r] == c
    ensures forall k :: r < k < |s| ==> s[k] != c
  {
    if |s| == 0 then -1
    else if s[|s| - 1] == c then |s| - 1
    else RFind(s[..|s| - 1], c)
  }

  predicate AllDots(s: string) {
    forall k :: 0 <= k < |s| ==> s[k] == '.'
  }

  /** Every '.' of the last component of `p` has only dots before it in that component. */
  predicate NoExtension(p: Path) {
    forall k :: RFind(p, '/') < k < |p| && p[k] == '.' ==> AllDots(p[RFind(p, '/') + 1..k])
  }

  /**
   Where POSIX `os.path.splitext(p)` starts the extension: at the last '.'
   of the last path component, unless everything before that dot in the
   component is dots (so `.bashrc` and `..` have no extension); `|p|` when
   there is no extension.
   */
  function ExtensionStart(p: Path): (i: nat)
    ensures i <= |p|
    ensures i < |p| ==> p[i] == '.'
    ensures forall k :: i < k < |p| ==> p[k] != '.' && p[k] != '/'
    ensures i < |p| ==> !AllDots(p[..i][RFind(p[..i], '/') + 1..])
    ensures i == |p| ==> NoExtension(p)
  {
    var sep := RFind(p, '/');
    var dot := RFind(p, '.');
    if dot > sep && !AllDots(p[sep + 1..dot]) then
      RFindPrefix(p, '/', dot);
      assert p[..dot][sep + 1..] == p[sep + 1..dot];
      dot
    else
      NoDotBeforeLast(p);
      |p|
  }

  /** When the last component's last dot has only dots before it, so has every dot of that component. */
  lemma NoDotBeforeLast(p: Path)
    ensures !(RFind(p, '.') > RFind(p, '/') && !AllDots(p[RFind(p, '/') + 1..RFind(p, '.')])) ==> NoExtension(p)
  {
    var sep, dot := RFind(p, '/'), RFind(p, '.');
    forall k | sep < k < |p| && p[k] == '.' && !(dot > sep && !AllDots(p[sep + 1..dot]))
      ensures AllDots(p[sep + 1..k])
    {
      assert k <= dot;
      forall j | sep < j < k
        ensures p[j] == '.'
      {
        assert p[j] == p[sep + 1..dot][j - sep - 1];
      }
    }
  }

  /** POSIX `os.path.splitext(p)`: `(root, ext)` with `root + ext == p`. */
  function SplitExt(p: Path): (r: (Path, string))
    ensures r.0 + r.1 == p
    ensures r.1 == [] || r.1[0] == '.'
    ensures forall k :: 0 < k < |r.1| ==> r.1[k] != '.' && r.1[k] != '/'
    ensures r.1 != [] ==> !AllDots(r.0[RFind(r.0, '/') + 1..])
    ensures r.1 == [] ==> NoExtension(p)
  {
    var i := ExtensionStart(p);
    var root, ext := p[..i], p[i..];
    assert root + ext == p;
    assert ext == [] <==> i == |p|;
    assert forall k :: 0 <= k < |ext| ==> ext[k] == p[i + k];
    (root, ext)
  }

  /** Cutting `s` after its last `c` keeps that last index. */
  lemma RFindPrefix(s: string, c: char, n: nat)
    requires RFind(s, c) < n <= |s|
    ensures RFind(s[..n], c) == RFind(s, c)
  {
  }

  const CompressedSuffix: string := "_compressed.mp4"

  /**
   The file ffmpeg writes when compressing `input`: the input's path without
   its extension, followed by `_compressed.mp4`. It is never the input itself
   and lies in the input's directory: it starts with that directory and has
   no '/' after it.
   */
  function CompressedPath(input: Path): (out: Path)
    ensures out != input
    ensures |out| >= |CompressedSuffix| && out[|out| - |CompressedSuffix|..] == CompressedSuffix
    ensures input[..RFind(input, '/') + 1] <= out
    ensures forall k :: RFind(input, '/') < k < |out| ==> out[k] != '/'
  {
    var (root, ext) := SplitExt(input);
    var out := root + CompressedSuffix;
    assert ext != CompressedSuffix by { assert CompressedSuffix[0] == '_'; }
    assert out[|root|..] == CompressedSuffix;
    assert input[|root|..] == ext;
    assert RFind(input, '/') < |root| by { RFindInRoot(root, ext); }
    assert input[..RFind(input, '/') + 1] == root[..RFind(input, '/') + 1];
    NoSeparatorAfter(input, root, ext);
    out
  }

  /** Replacing the extension by the suffix adds no '/' after the input's last one. */
  lemma NoSeparatorAfter(input: Path, root: string, ext: string)
    requires root + ext == input && RFind(input, '/') < |root|
    ensures forall k :: RFind(input, '/') < k < |root + CompressedSuffix| ==> (root + CompressedSuffix)[k] != '/'
  {
    var out := root + CompressedSuffix;
    assert forall k :: RFind(input, '/') < k < |root| ==> out[k] == input[k];
    assert forall j :: 0 <= j < |CompressedSuffix| ==> CompressedSuffix[j] != '/';
    assert forall k :: |root| <= k < |out| ==> out[k] == CompressedSuffix[k - |root|];
  }

  /** The last separator of `root + ext` is inside `root` when `ext` has no '/'. */
  lemma RFindInRoot(root: string, ext: string)
    requires forall k :: 0 <= k < |ext| ==> ext[k] != '/'
    ensures RFind(root + ext, '/') < |root|
  {
  }
}

=== FILE: scenarios.dfy ===
/**
 Six end-to-end runs of `download_with_info`, each starting from an empty
 download directory.
 */
module Scenarios {
  import opened Wrappers
  import opened Text
  import opened Media
  import opened Paths
  import opened Converter

  const MiB: nat := 1024 * 1024

  /** A 3 MiB first download is delivered as is, without compression. */
  lemma SmallFileDelivered(url: string, v: Path, info: MediaInfo, t: Transcode, second: Fetch)
    requires !MentionsFacebook(url)
    ensures var run := DownloadWithInfo(url, map[], Oracle(Fetched(v, info, Some(3 * MiB)), t, second));
      && run.result == Some(Delivery(v, info))
      && run.fs == map[v := 3 * MiB]
      && run.events == [Download(SizeCapped)]
  {
  }

  /** A 15 MiB download compressed to 6 MiB: the compressed file is delivered and the original is gone. */
  lemma CompressedFileDelivered(url: string, v: Path, info: MediaInfo, second: Fetch)
    requires !MentionsFacebook(url)
    ensures var run := DownloadWithInfo(url, map[], Oracle(Fetched(v, info, Some(15 * MiB)), ExitZero(Some(6 * MiB)), second));
      && run.result == Some(Delivery(CompressedPath(v), info))
      && run.fs == map[CompressedPath(v) := 6 * MiB]
      && run.events == [Download(SizeCapped), Compress(v), Remove(v)]
  {
    CompressionFits(v);
  }

  /** A 15 MiB original compressed to 6 MiB: compression succeeds and, once the original is removed, only its output remains. */
  lemma CompressionFits(v: Path)
    ensures var c := CompressVideo(v, map[v := 15 * MiB], ExitZero(Some(6 * MiB)));
      c.output == Some(CompressedPath(v)) && c.fs - {v} == map[CompressedPath(v) := 6 * MiB]
  {
    var out := CompressedPath(v);
    assert map[v := 15 * MiB][out := 6 * MiB] - {v} == map[out := 6 * MiB];
  }

  /**
   Compression still leaves 9 MiB: the compressed file and the original are
   removed and a worst-quality download of 7 MiB is delivered with its own
   metadata.
   */
  lemma FallbackDelivered(url: string, v: Path, info: MediaInfo, v2: Path, info2: MediaInfo)
    requires !MentionsFacebook(url)
    ensures var run := DownloadWithInfo(url, map[],
        Oracle(Fetched(v, info, Some(15 * MiB)), ExitZero(Some(9 * MiB)), Fetched(v2, info2, Some(7 * MiB))));
      && run.result == Some(Delivery(v2, info2))
      && run.fs == map[v2 := 7 * MiB]
      && run.events == [Download(SizeCapped), Compress(v), Remove(v), Download(Worst)]
  {
    CompressionTooLarge(v);
    var r := Retry(map[], Fetched(v2, info2, Some(7 * MiB)));
    assert r == Run(Some(Delivery(v2, info2)), map[v2 := 7 * MiB], [Download(Worst)]);
  }

  /** The worst-quality download is 10 MiB as well: nothing is delivered and no file remains. */
  lemma NothingFits(url: string, v: Path, info: MediaInfo, v2: Path, info2: MediaInfo)
    requires !MentionsFacebook(url)
    ensures var run := DownloadWithInfo(url, map[],
        Oracle(Fetched(v, info, Some(15 * MiB)), ExitZero(Some(9 * MiB)), Fetched(v2, info2, Some(10 * MiB))));
      && run.result == None
      && run.fs == map[]
      && run.events == [Download(SizeCapped), Compress(v), Remove(v), Download(Worst), Remove(v2)]
  {
    CompressionTooLarge(v);
    var r := Retry(map[], Fetched(v2, info2, Some(10 * MiB)));
    assert map[v2 := 10 * MiB] - {v2} == map[];
    assert r == Run(None, map[], [Download(Worst), Remove(v2)]);
  }

  /** A 15 MiB original compressed to 9 MiB: compression fails and, once the original is removed, the directory is empty. */
  lemma CompressionTooLarge(v: Path)
    ensures var c := CompressVideo(v, map[v := 15 * MiB], ExitZero(Some(9 * MiB)));
      c.output == None && c.fs - {v} == map[]
  {
    var out := CompressedPath(v);
    assert map[v := 15 * MiB][out := 9 * MiB] - {out} - {v} == map[];
  }

  /** A Facebook link is fetched with the worst-quality policy from the start. */
  lemma FacebookSmallFileDelivered(url: string, v: Path, info: MediaInfo, t: Transcode, second: Fetch)
    requires Contains(url, "facebook.com")
    ensures var run := DownloadWithInfo(url, map[], Oracle(Fetched(v, info, Some(3 * MiB)), t, second));
      && run.result == Some(Delivery(v, info))
      && run.events == [Download(Worst)]
  {
  }

  /** yt-dlp raises on the first call: nothing is delivered and nothing is written. */
  lemma ExtractorRaises(url: string, t: Transcode, second: Fetch)
    ensures var run := DownloadWithInfo(url, map[], Oracle(Raised, t, second));
      run.result == None && run.fs == map[]
  {
  }
}

=== FILE: text.dfy ===
/**
 The handful of Python `str` operations the bot relies on: substring
 membership (`p in s`), `startswith`, `isspace`, `split()` with no argument
 and `strip()` with no argument. Strings are sequences of Unicode scalar
 values, as Python 3 `str` values are.
 */
module Text {

  /** `p` occurs in `s` starting at index `i`. */
  predicate OccursAt(s: string, p: string, i: nat) {
    i + |p| <= |s| && s[i..i + |p|] == p
  }

  lemma OccursShift(s: string, p: string)
    requires |s| > 0
    ensures forall i: nat :: OccursAt(s[1..], p, i) <==> OccursAt(s, p, i + 1)
  {
    forall i: nat
      ensures OccursAt(s[1..], p, i) <==> OccursAt(s, p, i + 1)
    {
      if i + |p| <= |s[1..]| {
        assert s[1..][i..i + |p|] == s[i + 1..i + 1 + |p|];
      }
    }
  }

  /** Python's `p in s`: a left-to-right scan for an occurrence of `p`. */
  function Contains(s: string, p: string): (r: bool)
    ensures r <==> exists i: nat :: OccursAt(s, p, i)
    decreases |s|
  {
    if |p| > |s| then false
    else if s[..|p|] == p then assert OccursAt(s, p, 0); true
    else
      OccursShift(s, p);
      assert forall i: nat :: OccursAt(s, p, i) ==> i > 0;
      assert forall i: nat :: OccursAt(s, p, i) ==> OccursAt(s[1..], p, i - 1);
      Contains(s[1..], p)
  }

  /** An occurrence of `q` inside an occurrence of `p` is an occurrence of `q`. */
  lemma ContainsTransitive(s: string, p: string, q: string)
    requires Contains(s, p) && Contains(p, q)
    ensures Contains(s, q)
  {
    var i: nat :| OccursAt(s, p, i);
    var j: nat :| OccursAt(p, q, j);
    forall k | 0 <= k < |q|
      ensures s[i + j + k] == q[k]
    {
      assert s[i + j + k] == s[i..i + |p|][j + k];
      assert p[j..j + |q|][k] == p[j + k];
    }
    assert s[i + j..i + j + |q|] == q;
    assert OccursAt(s, q, i + j);
  }

  /** Python's `s.startswith(p)`. */
  predicate StartsWith(s: string, p: string): (r: bool)
    ensures r <==> OccursAt(s, p, 0)
    ensures r <==> |p| <= |s| && forall k :: 0 <= k < |p| ==> s[k] == p[k]
  {
    |p| <= |s| && s[..|p|] == p
  }

  /**
   Python's `str.isspace` on one character: the code points CPython's
   `Py_UNICODE_ISSPACE` accepts, which are what `split()` and `strip()`
   cut on.
   */
  predicate IsSpace(c: char) {
    var n := c as int;
    (0x09 <= n <= 0x0D) || (0x1C <= n <= 0x20) || n == 0x85 || n == 0xA0
    || n == 0x1680 || (0x2000 <= n <= 0x200A) || n == 0x2028 || n == 0x2029
    || n == 0x202F || n == 0x205F || n == 0x3000
  }

  predicate NoSpace(s: string) {
    forall k :: 0 <= k < |s| ==> !IsSpace(s[k])
  }

  predicate AllSpace(s: string) {
    forall k :: 0 <= k < |s| ==> IsSpace(s[k])
  }

  /** Length of the run of non-space characters that `s` starts with. */
  function WordLen(s: string): (n: nat)
    ensures n <= |s|
    ensures NoSpace(s[..n])
    ensures n < |s| ==> IsSpace(s[n])
  {
    if |s| == 0 || IsSpace(s[0]) then 0
    else
      var m := WordLen(s[1..]);
      assert s[..1 + m] == [s[0]] + s[1..][..m];
      1 + m
  }

  /** Python's `s.split()`: the maximal runs of non-space characters, in order. */
  function Words(s: string): (ws: seq<string>)
    ensures forall i :: 0 <= i < |ws| ==> |ws[i]| > 0 && NoSpace(ws[i])
    decreases |s|
  {
    if |s| == 0 then []
    else if IsSpace(s[0]) then Words(s[1..])
    else
      var n := WordLen(s);
      [s[..n]] + Words(s[n..])
  }

  /** Python's `s.lstrip()`. */
  function LStrip(s: string): (r: string)
    ensures |r| <= |s| && r == s[|s| - |r|..]
    ensures AllSpace(s[..|s| - |r|])
    ensures |r| > 0 ==> !IsSpace(r[0])
  {
    if |s| > 0 && IsSpace(s[0]) then
      var r := LStrip(s[1..]);
      assert s[..|s| - |r|] == [s[0]] + s[1..][..|s[1..]| - |r|];
      r
    else s
  }

  /** Python's `s.rstrip()`. */
  function RStrip(s: string): (r: string)
    ensures |r| <= |s| && r == s[..|r|]
    ensures AllSpace(s[|r|..])
    ensures |r| > 0 ==> !IsSpace(r[|r| - 1])
  {
    if |s| > 0 && IsSpace(s[|s| - 1]) then
      var r := RStrip(s[..|s| - 1]);
      assert s[|r|..] == s[..|s| - 1][|r|..] + [s[|s| - 1]];
      r
    else s
  }

  /** Number of whitespace characters `s.lstrip()` removes. */
  function LeadingSpace(s: string): nat {
    |s| - |LStrip(s)|
  }

  /** Python's `s.strip()`: `s` minus a blank prefix and a blank suffix. */
  function Strip(s: string): (r: string)
    ensures LeadingSpace(s) + |r| <= |s|
    ensures r == s[LeadingSpace(s)..LeadingSpace(s) + |r|]
    ensures AllSpace(s[..LeadingSpace(s)]) && AllSpace(s[LeadingSpace(s) + |r|..])
    ensures |r| > 0 ==> !IsSpace(r[0]) && !IsSpace(r[|r| - 1])
  {
    var l := LStrip(s);
    var r := RStrip(l);
    var i := |s| - |l|;
    assert r == l[..|r|];
    assert s[i + |r|..] == l[|r|..];
    r
  }

  // ---- The algebra of `split()` ----

  /** A word-boundary space splits the word list in two. */
  lemma {:induction false} WordsSplitAt(a: string, c: char, b: string)
    requires IsSpace(c)
    ensures Words(a + [c] + b) == Words(a) + Words(b)
    decreases |a|
  {
    var s := a + [c] + b;
    if |a| == 0 {
      assert s[1..] == b;
    } else if IsSpace(a[0]) {
      assert s[1..] == a[1..] + [c] + b;
      WordsSplitAt(a[1..], c, b);
    } else {
      var n := WordLen(a);
      WordLenStopsAtSpace(a, c, b);
      assert s[..n] == a[..n];
      assert s[n..] == a[n..] + [c] + b;
      WordsSplitAt(a[n..], c, b);
    }
  }

  lemma {:induction false} WordLenStopsAtSpace(a: string, c: char, b: string)
    requires IsSpace(c)
    ensures WordLen(a + [c] + b) == WordLen(a)
    decreases |a|
  {
    var s := a + [c] + b;
    if |a| == 0 {
    } else if IsSpace(a[0]) {
    } else {
      assert s[1..] == a[1..] + [c] + b;
      WordLenStopsAtSpace(a[1..], c, b);
    }
  }

  /** A single space-free, non-empty string is one word. */
  lemma {:induction false} WordsOfWord(w: string)
    requires |w| > 0 && NoSpace(w)
    ensures Words(w) == [w]
  {
    WordLenOfWord(w);
    assert w[..|w|] == w;
    assert w[|w|..] == [];
  }

  lemma {:induction false} WordLenOfWord(w: string)
    requires NoSpace(w)
    ensures WordLen(w) == |w|
    decreases |w|
  {
    if |w| > 0 {
      WordLenOfWord(w[1..]);
    }
  }

  /** Whitespace alone has no words. */
  lemma {:induction false} WordsOfBlank(s: string)
    requires AllSpace(s)
    ensures Words(s) == []
    decreases |s|
  {
    if |s| > 0 {
      WordsOfBlank(s[1..]);
    }
  }

  /** Leading whitespace does not change the words. */
  lemma {:induction false} WordsBlankPrefix(s: string, i: nat)
    requires i <= |s| && AllSpace(s[..i])
    ensures Words(s[i..]) == Words(s)
    decreases i
  {
    if i > 0 {
      assert IsSpace(s[0]);
      assert s[1..][i - 1..] == s[i..];
      assert s[1..][..i - 1] == s[1..i];
      WordsBlankPrefix(s[1..], i - 1);
    }
  }

  /** Trailing whitespace does not change the words. */
  lemma WordsBlankSuffix(s: string, j: nat)
    requires j <= |s| && AllSpace(s[j..])
    ensures Words(s[..j]) == Words(s)
  {
    if j < |s| {
      assert s == s[..j] + [s[j]] + s[j + 1..];
      WordsSplitAt(s[..j], s[j], s[j + 1..]);
      WordsOfBlank(s[j + 1..]);
      assert Words(s[..j]) + [] == Words(s[..j]);
    } else {
      assert s[..j] == s;
    }
  }

  /** `s.strip().split() == s.split()`. */
  lemma WordsStrip(s: string)
    ensures Words(Strip(s)) == Words(s)
  {
    var r := Strip(s);
    var i := LeadingSpace(s);
    var rest := s[i..];
    WordsBlankPrefix(s, i);
    assert rest[..|r|] == r;
    assert rest[|r|..] == s[i + |r|..];
    WordsBlankSuffix(rest, |r|);
  }
}

=== FILE: wrappers.dfy ===
/** Python's `None`-or-value results, as an option type. */
module Wrappers {

  datatype Option<+T> = None | Some(value: T)
}
